=== FILE: README.md ===
# deploy-certificate-to-tencentcloud, modelled in Dafny

The action reads a certificate, a key and a whitespace-separated list of CDN
domains. It turns the list into distinct domain names and deploys the
certificate to each domain in turn with one `UpdateDomainConfig` call. The first
rejected call ends the run as a failure. This project models the two parts of
`index.js` that carry behaviour and proves properties of them:

- **Domain-list normalisation** (index.js:28):
  `Array.from(new Set(input.cdnDomains.split(/\s+/).filter((x) => x)))`.
  - `Tokenizer.Split` models `split(/\s+/)`.
  - `Tokenizer.NonEmpty` models `filter((x) => x)`.
  - `Tokenizer.Tokens` composes the two.
  - `Dedupe.Dedup` and `Dedupe.InsertionOrdered` model the insertion-ordered `Set` read back by `Array.from`.
  - `DomainList.Normalise` composes them all.
  - Whitespace is `Tokenizer.IsWs`, the exact set of characters JavaScript's `\s` matches.
- **The deploy loop** (index.js:33-58) and its error path (index.js:48-56, 61-65).
  - The remote call is an oracle `accepts: string -> bool`, meaning the update of that domain is fulfilled.
  - `Deploy.DeployAll` is the recursive definition. `Deploy.DeployLoop` is the `for` loop with its early exit.
  - The rejection handler is a parameter of `Deploy.DeployAll`. `Deploy.Rejection` is the handler as intended: it reports the SDK's rejection of the failing domain. `Deploy.RejectionAsWritten` is the handler as written at index.js:52-56: it reports a `ReferenceError` for `error`.
  - `Deploy.Action` is one run on the raw input, with the rejection handler as intended. `Deploy.ActionAsWritten` is the same run with the handler as written.
  - A run is a `Run(attempted, status)` value: the domains whose update was requested, in order, and `Success` or `Failed(reason)`.

Files: `tokenizer.dfy` (module `Tokenizer`), `dedupe.dfy` (module `Dedupe`),
`domains.dfy` (module `DomainList`), `deploy.dfy` (module `Deploy`).

## Model

| member | source | states |
|---|---|---|
| Tokenizer.Split | index.js:28 | `split(/\s+/)` always returns at least one field. No field contains whitespace. The first field is empty exactly when the input is empty or starts with whitespace. The last field is empty exactly when the input is empty or ends with whitespace. There is a single field exactly when the input has no whitespace. Every field strictly between the first and the last is non-empty. |
| Tokenizer.SplitKeepsText | index.js:28 | The fields of `split(/\s+/)`, concatenated, are exactly the input's non-whitespace characters in order. |
| Tokenizer.NonEmpty | index.js:28 | `filter((x) => x)` keeps exactly the non-empty strings and never lengthens the list. |
| Tokenizer.NonEmptyAppend | index.js:28 | `filter((x) => x)` keeps order and repeats: filtering a concatenation gives the concatenation of the filtered parts. |
| Tokenizer.Tokens | index.js:28 | Every word produced from the input is non-empty and contains no whitespace. |
| Tokenizer.TokensWsCons | index.js:28 | A whitespace character in front of the input adds no word and changes no word. |
| Tokenizer.TokensNonWsCons | index.js:28 | A non-whitespace character in front of the input becomes a new word when a separator or the end follows it. Otherwise it becomes the first character of the first word. |
| Tokenizer.TokensKeepText | index.js:28 | The words, concatenated, are exactly the input's non-whitespace characters in order. Nothing is lost or invented. |
| Tokenizer.TokensEmptyIff | index.js:28 | The input yields no word if and only if it is empty or whitespace only. |
| Tokenizer.TokensConcat | index.js:28 | Text on the two sides of a whitespace character is tokenised independently: the left part's words come first, then the right part's. |
| Tokenizer.TokensOfWord | index.js:28 | A single non-empty, whitespace-free string yields exactly itself. |
| Tokenizer.TokensJoinSpace | index.js:28 | Joining non-empty, whitespace-free words with single spaces and tokenising again gives the same words back. |
| Tokenizer.TokensAreRuns | index.js:28 | A string is a word of the input if and only if it is a maximal run of non-whitespace characters of the input. |
| Dedupe.Dedup | index.js:28 | Removing duplicates leaves no value twice. It keeps every value of the input and adds none. |
| Dedupe.InsertionOrdered | index.js:28 | One pass with a set of seen values, as `new Set(xs)` then `Array.from` does it, gives the same list as `Dedup`. |
| Dedupe.DedupOrder | index.js:28 | Of two values, the one that first occurs earlier in the input comes earlier in the deduplicated list. The converse holds too. |
| Dedupe.DedupOfDistinct | index.js:28 | A list with no duplicates is returned unchanged. |
| Dedupe.DedupIdempotent | index.js:28 | Deduplicating twice is the same as deduplicating once. |
| DomainList.Normalise | index.js:28 | Every listed domain is non-empty and free of whitespace. No domain is listed twice. The listed domains are exactly the words of the input. |
| DomainList.NormaliseEmptyIff | index.js:28 | The list is empty if and only if the input is empty or whitespace only. Only then does the loop at index.js:33 make no call. |
| DomainList.NormaliseMembers | index.js:28 | A string is a listed domain if and only if it is a maximal non-whitespace run of the input. |
| DomainList.NormaliseFirstAppearance | index.js:28 | Domains are listed in the order of their first appearance among the input's words. The converse holds too. |
| DomainList.NormaliseOrderAcrossCut | index.js:28 | Cut the input at a whitespace character. A domain appearing before the cut is listed before any domain that appears only after it. |
| DomainList.NormaliseIdempotent | index.js:28 | Normalising the space-joined list gives the same list back. |
| Deploy.RejectionAsWritten | index.js:52-65 | The handler as written fails the run with a `ReferenceError` for `error`, which is never the SDK rejection of the domain. |
| Deploy.HandlerIdentifiesDomain | index.js:52-65 | With the handler as intended, the run reports the rejection of the failing domain's own update, which the model represents by that domain, so rejections of different domains are reported by different stand-ins. As written, every rejection is reported as the same `ReferenceError` for `error`. |
| Deploy.DeployAll | index.js:33-58 | The run succeeds if and only if every update is accepted. On success, the attempted domains are exactly the list, in order. On failure, the attempted domains are a non-empty prefix of the list. Every attempted domain but the last was accepted, the last was rejected, and the reported failure comes from that domain. |
| Deploy.DeployStopsAtFirstRejection | index.js:48-56 | If the `k`-th update is the first one rejected, the run attempted exactly the first `k + 1` domains and failed there. No later domain is attempted. |
| Deploy.DeployTraceIgnoresHandler | index.js:52-65 | Which domains are attempted, and whether the run fails, do not depend on how the rejection handler reports the error. |
| Deploy.DeployPrefix | index.js:33-58 | The attempted domains are always a prefix of the list, never longer than it. The run succeeds if and only if every listed domain is accepted. |
| Deploy.DeployLoop | index.js:33-58 | The `for` loop with its awaited call and early return produces the same run as `DeployAll`. |
| Deploy.Action | index.js:27-58 | With the rejection handler as intended: the attempted domains are a prefix of the normalised list. The run succeeds if and only if every listed domain is accepted. No domain is attempted twice. Every attempted domain is a word of the input. Whitespace-only input makes no call and succeeds. A failed run reports the SDK rejection of the last attempted domain. |
| Deploy.ActionAsWritten | index.js:48-65 | With the handler as written, the attempted domains and the fact of failure are the same as in `Action`. |
| Deploy.AsWrittenMasksRejection | index.js:52-65 | Whenever the intended run fails with the rejection of the failing domain, the run as written reports a `ReferenceError` for `error` instead. |
| Deploy.FailureIdentifiesDomain | index.js:48-65 | With the handler as intended, a failed run reports the rejection of its failing domain's own update, which the model represents by that domain: two failed runs carry the same stand-in if and only if they failed on the same domain. Two runs as written that both fail always report the same `ReferenceError`. |
| Deploy.AsWrittenCounterexample | index.js:52-65 | For input `a.cn` with its update rejected, the run as written fails with the `ReferenceError`, while the intended run fails with the rejection of `a.cn`. |

## Left out

- Reading the action inputs with `core.getInput` and building the SDK client configuration (index.js:6-25) are left out. They are configuration.
- Reading the certificate and key files (index.js:30-31) is left out. It is file I/O. The model assumes both reads succeed. A failed read throws before the loop, so `main` rejects and index.js:61-65 fails the run with no update attempted.
- Deploy.Action: "whitespace-only input makes no call and succeeds" assumes both file reads at index.js:30-31 succeed. A failed read fails the run before any update.
- Deploy.DeployAll: "succeeds if and only if every update is accepted" assumes both file reads at index.js:30-31 succeed. A failed read fails the run before any update.
- The Tencent Cloud SDK client, the request parameters and the remote `UpdateDomainConfig` call (index.js:36-48) are left out. The call is a foreign remote call. Only its fulfilled or rejected outcome is kept, as the oracle `accepts`.
- The oracle answers per domain, not per call. This is enough because `Normalise` lists each domain once, so each domain is called at most once in a run.
- `console.log`, `console.error` and `error.stack` output (index.js:34, 50, 53, 62) is left out. It is logging only.
- Deploy.Rejection: the SDK error `err` (its message, code and request id) is represented by the domain whose update it rejected. The text `core.setFailed(err)` would print comes from the remote service and can coincide for different domains or differ for the same one, so `HandlerIdentifiesDomain` and `FailureIdentifiesDomain` compare these stand-ins, not that text.
- `core.setFailed` and `process.exit(1)` (index.js:54-55, 63-64) are represented only by `Failed(reason)`: a failed run exits with code 1. A run that ends normally is `Success`.
- Promise and `async` mechanics are left out. Every call is awaited before the next starts, so there is no concurrency to model.
- JavaScript strings are sequences of UTF-16 code units. Here a string is a sequence of Unicode scalar values, so a lone surrogate cannot be represented. Every character `\s` matches is a single code unit, so splitting is unaffected.

## Findings

| source | as written | input that shows it | evidently intended | confidence | as-written member | corrected member |
|---|---|---|---|---|---|---|
| index.js:52-56 | The rejection handler passes `error` to `core.setFailed`, but only `err` is bound there. Reading `error` throws a `ReferenceError`, so `process.exit(1)` is never reached. The rejection then reaches `main().catch` (index.js:61-65), which fails the run with the `ReferenceError` rather than the SDK's error. The domains attempted and the fact of failure are unaffected. | `cdn-domains` = `a.cn`, update of `a.cn` rejected (`Deploy.AsWrittenCounterexample`) | The run fails with the SDK's rejection `err` of the failing domain's update. | high; not executed | Deploy.ActionAsWritten | Deploy.Action |

=== FILE: dedupe.dfy ===
/** `Array.from(new Set(xs))` (index.js:28): a JavaScript `Set` remembers its
    elements in insertion order and ignores a value it already holds, so the
    array read back from it lists every distinct value of `xs` once, at the
    place of its first occurrence. */
module Dedupe {

  /** No value occurs twice in `xs`. */
  predicate NoDup<T(==)>(xs: seq<T>) {
    forall i, j | 0 <= i < j < |xs| :: xs[i] != xs[j]
  }

  /** The position of the first occurrence of `x` in `xs`. */
  function FirstIndex<T(==)>(xs: seq<T>, x: T): (k: nat)
    requires x in xs
    ensures k < |xs| && xs[k] == x
    ensures forall j | 0 <= j < k :: xs[j] != x
  {
    if xs[0] == x then 0 else 1 + FirstIndex(xs[1..], x)
  }

  /** The distinct values of `xs` in order of first occurrence: `xs` is read
      from the front, and a value is appended unless it is already there. */
  function Dedup<T(==)>(xs: seq<T>): (ys: seq<T>)
    ensures NoDup(ys)
    ensures forall x | x in xs :: x in ys
    ensures forall y | y in ys :: y in xs
    ensures |ys| <= |xs|
    decreases |xs|
  {
    if |xs| == 0 then []
    else
      var d := Dedup(xs[..|xs| - 1]);
      var a := xs[|xs| - 1];
      if a in d then d else d + [a]
  }

  /** `new Set(xs)` followed by `Array.from`: one pass over `xs` that keeps a
      set of the values seen so far and appends each value not yet seen. */
  method InsertionOrdered<T(==)>(xs: seq<T>) returns (ys: seq<T>)
    ensures ys == Dedup(xs)
  {
    var seen: set<T> := {};
    ys := [];
    for i := 0 to |xs|
      invariant ys == Dedup(xs[..i])
      invariant forall y :: y in seen <==> y in ys
    {
      assert xs[..i + 1][..i] == xs[..i];
      if xs[i] !in seen {
        seen := seen + {xs[i]};
        ys := ys + [xs[i]];
      }
    }
    assert xs[..|xs|] == xs;
  }

  /** Appending a value leaves the first occurrence of every earlier value
      where it was; a new value first occurs at the end. */
  lemma FirstIndexAppend<T>(xs: seq<T>, a: T, x: T)
    requires x in xs + [a]
    ensures FirstIndex(xs + [a], x) == if x in xs then FirstIndex(xs, x) else |xs|
  {
    var k := FirstIndex(xs + [a], x);
    if x in xs {
      var k' := FirstIndex(xs, x);
      assert (xs + [a])[k'] == x;
      assert k <= k';
      assert xs[k] == x;
    } else {
      assert (xs + [a])[|xs|] == x;
    }
  }

  /** A value of `p` first occurs in `p + q` where it first occurs in `p`. */
  lemma FirstIndexPrefix<T>(p: seq<T>, q: seq<T>, x: T)
    requires x in p
    ensures FirstIndex(p + q, x) == FirstIndex(p, x)
  {
    var k, k' := FirstIndex(p + q, x), FirstIndex(p, x);
    assert (p + q)[k'] == x;
    assert k <= k' && p[k] == x;
  }

  /** A value of `q` absent from `p` first occurs in `p + q` after all of `p`. */
  lemma FirstIndexSuffix<T>(p: seq<T>, q: seq<T>, y: T)
    requires y !in p && y in q
    ensures FirstIndex(p + q, y) >= |p|
  {
    assert forall i | 0 <= i < |p| :: (p + q)[i] == p[i] != y;
  }

  /** Removing duplicates keeps the order of first occurrences: of two values
      of `xs`, the one that occurs first in `xs` comes first in the result. */
  lemma {:induction false} DedupOrder<T>(xs: seq<T>, x: T, y: T)
    requires x in xs && y in xs
    ensures FirstIndex(Dedup(xs), x) < FirstIndex(Dedup(xs), y)
            <==> FirstIndex(xs, x) < FirstIndex(xs, y)
    decreases |xs|
  {
    var p, a := xs[..|xs| - 1], xs[|xs| - 1];
    assert xs == p + [a];
    var d := Dedup(p);
    FirstIndexAppend(p, a, x);
    FirstIndexAppend(p, a, y);
    if a !in d {
      FirstIndexAppend(d, a, x);
      FirstIndexAppend(d, a, y);
    }
    if x in p && y in p {
      DedupOrder(p, x, y);
    }
  }

  /** A list without duplicates is left as it is. */
  lemma {:induction false} DedupOfDistinct<T>(xs: seq<T>)
    requires NoDup(xs)
    ensures Dedup(xs) == xs
    decreases |xs|
  {
    if |xs| > 0 {
      var p := xs[..|xs| - 1];
      DedupOfDistinct(p);
      assert xs[|xs| - 1] !in p;
      assert p + [xs[|xs| - 1]] == xs;
    }
  }

  /** Removing duplicates twice is the same as removing them once. */
  lemma DedupIdempotent<T>(xs: seq<T>)
    ensures Dedup(Dedup(xs)) == Dedup(xs)
  {
    DedupOfDistinct(Dedup(xs));
  }
}

=== FILE: deploy.dfy ===
/** The deploy loop of `main` (index.js:33-58) and its error path
    (index.js:48-56, index.js:61-65). Each listed domain gets one awaited
    `UpdateDomainConfig` call, in order; the first rejected call ends the run
    as a failure, so no later domain is attempted. The remote call is an
    oracle: `accepts(d)` says whether the call for domain `d` is fulfilled.
    Every domain is called at most once per run, so one answer per domain
    suffices. */
module Deploy {
  import opened Tokenizer
  import opened Dedupe
  import opened DomainList

  /** Why a run failed. */
  datatype Failure =
    | Rejected(domain: string)      // the SDK rejected the update of `domain`
    | ReferenceError(name: string)  // the code read the unbound identifier `name`

  datatype Status = Success | Failed(reason: Failure)

  /** What one run did: the domains whose update was requested, in order, and
      how the run ended (a failed run exits with code 1). */
  datatype Run = Run(attempted: seq<string>, status: Status)

  /** The rejection handler as written (index.js:52-56): it logs `err`, then
      passes the identifier `error`, which is not bound in that scope, to
      `core.setFailed`. Reading it throws a `ReferenceError`, which rejects
      the awaited promise; `main` rejects in turn and its `catch` handler
      (index.js:61-65) reports that error and exits with code 1.
      `process.exit(1)` at index.js:55 is never reached. */
  function RejectionAsWritten(domain: string): (f: Failure)
    ensures f.ReferenceError? && f.name == "error"
    ensures f != Rejection(domain)
  {
    ReferenceError("error")
  }

  /** The rejection handler as intended: the run fails with the SDK's own
      rejection of the domain's update. */
  function Rejection(domain: string): (f: Failure)
    ensures f.Rejected? && f.domain == domain
  {
    Rejected(domain)
  }

  /** With the handler as intended, the run reports the rejection of the
      failing domain's own update, which the model represents by that domain:
      rejections of different domains are different stand-ins. As written,
      every rejection is reported as the same `ReferenceError`, so nothing of
      the rejected update reaches the report. */
  lemma HandlerIdentifiesDomain(d1: string, d2: string)
    ensures Rejection(d1) == Rejection(d2) <==> d1 == d2
    ensures RejectionAsWritten(d1) == RejectionAsWritten(d2)
  {
  }

  /** Deploys `domains` in order, stopping at the first rejected update;
      `onReject` turns the rejected domain into the failure the run reports. */
  function DeployAll(domains: seq<string>, accepts: string -> bool,
                  onReject: string -> Failure): (run: Run)
    ensures run.status == Success <==> forall i | 0 <= i < |domains| :: accepts(domains[i])
    ensures run.status == Success ==> run.attempted == domains
    ensures run.status.Failed? ==>
      && 0 < |run.attempted| <= |domains|
      && run.attempted == domains[..|run.attempted|]
      && (forall i | 0 <= i < |run.attempted| - 1 :: accepts(run.attempted[i]))
      && !accepts(run.attempted[|run.attempted| - 1])
      && run.status.reason == onReject(run.attempted[|run.attempted| - 1])
    decreases |domains|
  {
    if |domains| == 0 then Run([], Success)
    else if accepts(domains[0]) then
      var rest := DeployAll(domains[1..], accepts, onReject);
      Run([domains[0]] + rest.attempted, rest.status)
    else
      Run([domains[0]], Failed(onReject(domains[0])))
  }

  /** If the update of the `k`-th domain is the first one rejected, the run
      attempted exactly the first `k + 1` domains and failed on that one. */
  lemma {:induction false} DeployStopsAtFirstRejection(
    domains: seq<string>, accepts: string -> bool, onReject: string -> Failure, k: nat)
    requires k < |domains| && !accepts(domains[k])
    requires forall i | 0 <= i < k :: accepts(domains[i])
    ensures DeployAll(domains, accepts, onReject) == Run(domains[..k + 1], Failed(onReject(domains[k])))
    decreases k
  {
    if k > 0 {
      var tail := domains[1..];
      DeployStopsAtFirstRejection(tail, accepts, onReject, k - 1);
      assert [domains[0]] + tail[..k] == domains[..k + 1];
    }
  }

  /** The domains attempted do not depend on how a rejection is reported. */
  lemma {:induction false} DeployTraceIgnoresHandler(
    domains: seq<string>, accepts: string -> bool, h1: string -> Failure, h2: string -> Failure)
    ensures DeployAll(domains, accepts, h1).attempted == DeployAll(domains, accepts, h2).attempted
    ensures DeployAll(domains, accepts, h1).status.Failed? == DeployAll(domains, accepts, h2).status.Failed?
    decreases |domains|
  {
    if |domains| > 0 && accepts(domains[0]) {
      DeployTraceIgnoresHandler(domains[1..], accepts, h1, h2);
    }
  }

  /** The attempted domains are always a prefix of the list, and the run
      succeeds exactly when every listed domain is accepted. */
  lemma DeployPrefix(domains: seq<string>, accepts: string -> bool, onReject: string -> Failure)
    ensures var run := DeployAll(domains, accepts, onReject);
      && |run.attempted| <= |domains|
      && run.attempted == domains[..|run.attempted|]
      && (run.status == Success <==> forall d | d in domains :: accepts(d))
  {
    assert domains[..|domains|] == domains;
  }

  /** The `for (const domain of domains)` loop with its awaited call: one
      update per domain, in order, returning at the first rejection. */
  method DeployLoop(domains: seq<string>, accepts: string -> bool,
                    onReject: string -> Failure) returns (run: Run)
    ensures run == DeployAll(domains, accepts, onReject)
  {
    var attempted: seq<string> := [];
    for i := 0 to |domains|
      invariant attempted == domains[..i]
      invariant forall j | 0 <= j < i :: accepts(domains[j])
    {
      attempted := attempted + [domains[i]];
      if !accepts(domains[i]) {
        DeployStopsAtFirstRejection(domains, accepts, onReject, i);
        run := Run(attempted, Failed(onReject(domains[i])));
        return;
      }
    }
    assert domains[..|domains|] == domains;
    run := Run(attempted, Success);
  }

  /** One run of the action on the raw `cdn-domains` input. */
  function Action(raw: string, accepts: string -> bool): (run: Run)
    ensures NoDup(run.attempted)
    ensures forall d | d in run.attempted :: IsWord(d) && d in Tokens(raw)
    ensures AllWs(raw) ==> run == Run([], Success)
    ensures |run.attempted| <= |Normalise(raw)|
    ensures run.attempted == Normalise(raw)[..|run.attempted|]
    ensures run.status == Success <==> forall d | d in Normalise(raw) :: accepts(d)
    ensures run.status.Failed? ==>
      |run.attempted| > 0 && run.status.reason == Rejected(run.attempted[|run.attempted| - 1])
  {
    var domains := Normalise(raw);
    NormaliseEmptyIff(raw);
    DeployPrefix(domains, accepts, Rejection);
    DeployAll(domains, accepts, Rejection)
  }

  /** The action with the rejection handler as written. */
  function ActionAsWritten(raw: string, accepts: string -> bool): (run: Run)
    ensures run.attempted == Action(raw, accepts).attempted
    ensures run.status.Failed? <==> Action(raw, accepts).status.Failed?
  {
    DeployTraceIgnoresHandler(Normalise(raw), accepts, RejectionAsWritten, Rejection);
    DeployAll(Normalise(raw), accepts, RejectionAsWritten)
  }

  /** As written, a failed run reports the `ReferenceError` for `error` where
      the SDK's rejection of the failing domain was meant. */
  lemma AsWrittenMasksRejection(raw: string, accepts: string -> bool)
    ensures var run, intended := ActionAsWritten(raw, accepts), Action(raw, accepts);
      intended.status.Failed? ==>
        && run.status == Failed(ReferenceError("error"))
        && intended.status == Failed(Rejected(intended.attempted[|intended.attempted| - 1]))
  {
  }

  /** At the level of whole runs: with the handler as intended, a failed run
      reports the rejection of its failing domain's own update (represented
      by that domain), so two failed runs carry the same stand-in exactly
      when they failed on the same domain; as written, all failed runs
      report the same `ReferenceError`. */
  lemma FailureIdentifiesDomain(raw1: string, accepts1: string -> bool,
                                raw2: string, accepts2: string -> bool)
    ensures var r1, r2 := Action(raw1, accepts1), Action(raw2, accepts2);
      r1.status.Failed? && r2.status.Failed? ==>
        (r1.status == r2.status
         <==> r1.attempted[|r1.attempted| - 1] == r2.attempted[|r2.attempted| - 1])
    ensures var w1, w2 := ActionAsWritten(raw1, accepts1), ActionAsWritten(raw2, accepts2);
      w1.status.Failed? && w2.status.Failed? ==> w1.status == w2.status
  {
  }

  /** A concrete input that shows it: one domain whose update is rejected. */
  lemma AsWrittenCounterexample()
    ensures ActionAsWritten("a.cn", d => false).status == Failed(ReferenceError("error"))
    ensures Action("a.cn", d => false).status == Failed(Rejected("a.cn"))
  {
    var raw := "a.cn";
    assert NoWs(raw);
    TokensOfWord(raw);
    DedupOfDistinct(Tokens(raw));
    assert Normalise(raw) == [raw];
  }
}

=== FILE: domains.dfy ===
/** The list of CDN domains the action deploys to (index.js:28): the words of
    the `cdn-domains` input, each distinct word once, in order of first
    appearance. */
module DomainList {
  import opened Tokenizer
  import opened Dedupe

  /** `Array.from(new Set(input.cdnDomains.split(/\s+/).filter((x) => x)))`. */
  function Normalise(raw: string): (domains: seq<string>)
    ensures forall d | d in domains :: IsWord(d)
    ensures NoDup(domains)
    ensures forall d | d in domains :: d in Tokens(raw)
    ensures forall t | t in Tokens(raw) :: t in domains
  {
    Dedup(Tokens(raw))
  }

  /** No domain is listed, and so nothing is deployed, exactly when the input
      is empty or holds only whitespace. */
  lemma NormaliseEmptyIff(raw: string)
    ensures Normalise(raw) == [] <==> AllWs(raw)
  {
    TokensEmptyIff(raw);
    if Tokens(raw) != [] {
      assert Tokens(raw)[0] in Tokens(raw);
    }
  }

  /** A string is a listed domain exactly when it is a maximal run of
      non-whitespace characters of the input. */
  lemma NormaliseMembers(raw: string, d: string)
    ensures d in Normalise(raw) <==> exists i, j :: IsRun(raw, i, j) && raw[i..j] == d
  {
    TokensAreRuns(raw, d);
  }

  /** Domains are listed in the order of their first appearance among the
      words of the input. */
  lemma NormaliseFirstAppearance(raw: string, x: string, y: string)
    requires x in Tokens(raw) && y in Tokens(raw)
    ensures FirstIndex(Normalise(raw), x) < FirstIndex(Normalise(raw), y)
            <==> FirstIndex(Tokens(raw), x) < FirstIndex(Tokens(raw), y)
  {
    DedupOrder(Tokens(raw), x, y);
  }

  /** Positional form of the ordering: if the input is cut at a whitespace
      character, a domain that appears before the cut is listed before every
      domain that appears only after it. */
  lemma NormaliseOrderAcrossCut(a: string, c: char, b: string, x: string, y: string)
    requires IsWs(c)
    requires x in Tokens(a) && y !in Tokens(a) && y in Tokens(b)
    ensures x in Normalise(a + [c] + b) && y in Normalise(a + [c] + b)
    ensures FirstIndex(Normalise(a + [c] + b), x) < FirstIndex(Normalise(a + [c] + b), y)
  {
    var raw := a + [c] + b;
    TokensConcat(a, c, b);
    var ta, tb := Tokens(a), Tokens(b);
    FirstIndexPrefix(ta, tb, x);
    FirstIndexSuffix(ta, tb, y);
    DedupOrder(Tokens(raw), x, y);
  }

  /** Writing the list back out with single spaces and normalising it again
      gives the same list: normalisation is idempotent. */
  lemma NormaliseIdempotent(raw: string)
    ensures Normalise(JoinSpace(Normalise(raw))) == Normalise(raw)
  {
    var ds := Normalise(raw);
    TokensJoinSpace(ds);
    DedupOfDistinct(ds);
  }
}

=== FILE: tokenizer.dfy ===
/** Splitting the raw `cdn-domains` input into words: `split(/\s+/)` followed by
    `filter((x) => x)` (index.js:28). Strings are sequences of characters. */
module Tokenizer {

  /** The characters JavaScript's regular-expression class `\s` matches: the
      ASCII blanks, the Unicode space separators, the line and paragraph
      separators and the byte-order mark. */
  predicate IsWs(c: char) {
    || c == '\t' || c == '\n' || c == '\U{B}' || c == '\U{C}' || c == '\r'
    || c == ' ' || c == '\U{A0}' || c == '\U{1680}'
    || ('\U{2000}' <= c && c <= '\U{200A}')
    || c == '\U{2028}' || c == '\U{2029}' || c == '\U{202F}' || c == '\U{205F}'
    || c == '\U{3000}' || c == '\U{FEFF}'
  }

  predicate NoWs(t: string) {
    forall k | 0 <= k < |t| :: !IsWs(t[k])
  }

  /** A word as the deploy loop sees it: non-empty and free of whitespace. */
  predicate IsWord(t: string) {
    t != [] && NoWs(t)
  }

  predicate AllWs(t: string) {
    forall k | 0 <= k < |t| :: IsWs(t[k])
  }

  /** `s[i..j]` is a maximal run of non-whitespace characters of `s`: it is not
      empty, holds no whitespace and cannot be extended on either side. */
  ghost predicate IsRun(s: string, i: int, j: int) {
    && 0 <= i < j <= |s|
    && (i == 0 || IsWs(s[i - 1]))
    && (j == |s| || IsWs(s[j]))
    && forall k | i <= k < j :: !IsWs(s[k])
  }

  /** The characters of `s` that are not whitespace, in order. */
  function RemoveWs(s: string): string {
    if |s| == 0 then []
    else (if IsWs(s[0]) then [] else [s[0]]) + RemoveWs(s[1..])
  }

  /** The concatenation of a list of strings. */
  function Flatten(ts: seq<string>): string {
    if |ts| == 0 then [] else ts[0] + Flatten(ts[1..])
  }

  /** The words of `ts` joined with one space between neighbours, as
      `ts.join(' ')` would build them. */
  function JoinSpace(ts: seq<string>): string {
    if |ts| == 0 then []
    else if |ts| == 1 then ts[0]
    else ts[0] + [' '] + JoinSpace(ts[1..])
  }

  /** The length of the longest prefix of `s` free of whitespace: where the
      first separator starts, or `|s|` when there is none. */
  function NonWsPrefix(s: string): (n: nat)
    ensures n <= |s|
    ensures forall k | 0 <= k < n :: !IsWs(s[k])
    ensures n < |s| ==> IsWs(s[n])
  {
    if |s| == 0 || IsWs(s[0]) then 0 else 1 + NonWsPrefix(s[1..])
  }

  /** `s.split(/\s+/)`: the fields between maximal whitespace runs, read from
      the front one character at a time. A non-whitespace character belongs to
      the field that follows it; a whitespace character ends a field unless the
      next character continues the same run. A leading or trailing run thus
      yields an empty field, and the empty string yields the one field `""`. */
  function Split(s: string): (fields: seq<string>)
    ensures |fields| >= 1
    ensures forall f | f in fields :: NoWs(f)
    ensures fields[0] == [] <==> |s| == 0 || IsWs(s[0])
    ensures fields[|fields| - 1] == [] <==> |s| == 0 || IsWs(s[|s| - 1])
    ensures |fields| == 1 <==> NoWs(s)
    ensures forall i | 0 < i < |fields| - 1 :: fields[i] != []
    decreases |s|
  {
    if |s| == 0 then [[]]
    else
      var rest := Split(s[1..]);
      assert NoWs(s) <==> !IsWs(s[0]) && NoWs(s[1..]) by {
        assert forall k | 1 <= k < |s| :: s[k] == s[1..][k - 1];
      }
      assert |s| > 1 ==> s[1..][|s| - 2] == s[|s| - 1];
      if !IsWs(s[0]) then
        var first := [s[0]] + rest[0];
        assert NoWs(first) by {
          assert rest[0] in rest;
          forall k | 1 <= k < |first| ensures !IsWs(first[k]) {
            assert first[k] == rest[0][k - 1];
          }
        }
        [first] + rest[1..]
      else if |s| > 1 && IsWs(s[1]) then rest
      else [[]] + rest
  }

  /** `filter((x) => x)` on a list of strings: the empty string is the only
      falsy one, so exactly the empty fields are dropped. */
  function NonEmpty(xs: seq<string>): (ys: seq<string>)
    ensures forall y :: y in ys <==> y in xs && y != []
    ensures |ys| <= |xs|
  {
    if |xs| == 0 then []
    else (if xs[0] == [] then [] else [xs[0]]) + NonEmpty(xs[1..])
  }

  /** The fields, concatenated, are exactly the non-whitespace characters of
      the input, in order: `split` drops the separators and nothing else. */
  lemma {:induction false} SplitKeepsText(s: string)
    ensures Flatten(Split(s)) == RemoveWs(s)
    decreases |s|
  {
    if |s| > 0 {
      var rest := Split(s[1..]);
      SplitKeepsText(s[1..]);
      assert Flatten(rest) == rest[0] + Flatten(rest[1..]);
      if !IsWs(s[0]) {
        var first := [s[0]] + rest[0];
        assert Split(s) == [first] + rest[1..];
        assert ([first] + rest[1..])[1..] == rest[1..];
      } else if !(|s| > 1 && IsWs(s[1])) {
        assert Split(s) == [[]] + rest;
        assert ([[]] + rest)[1..] == rest;
      }
    }
  }

  /** `filter` keeps order and repeats: filtering a concatenation is
      concatenating the filtered parts. */
  lemma {:induction false} NonEmptyAppend(xs: seq<string>, ys: seq<string>)
    ensures NonEmpty(xs + ys) == NonEmpty(xs) + NonEmpty(ys)
    decreases |xs|
  {
    if |xs| > 0 {
      assert (xs + ys)[0] == xs[0];
      assert (xs + ys)[1..] == xs[1..] + ys;
      NonEmptyAppend(xs[1..], ys);
    } else {
      assert xs + ys == ys;
    }
  }

  /** The words of the raw input, in input order. */
  function Tokens(s: string): (ts: seq<string>)
    ensures forall t | t in ts :: IsWord(t)
  {
    NonEmpty(Split(s))
  }

  /** `s` starts with a character of a word. */
  predicate StartsWord(s: string) {
    NonWsPrefix(s) > 0
  }

  /** Puts `w` in front of the word list `ts`: glued to the first word when
      `join` holds, as a word of its own otherwise. */
  function Glue(w: string, ts: seq<string>, join: bool): seq<string>
    requires join ==> |ts| > 0
  {
    if join then [w + ts[0]] + ts[1..] else [w] + ts
  }

  lemma GlueAppend(w: string, ta: seq<string>, tb: seq<string>, join: bool)
    requires join ==> |ta| > 0
    ensures Glue(w, ta + tb, join) == Glue(w, ta, join) + tb
  {
    if join {
      assert (ta + tb)[0] == ta[0];
      assert (ta + tb)[1..] == ta[1..] + tb;
    }
  }

  /** A whitespace character in front of the input adds no word. */
  lemma TokensWsCons(c: char, s: string)
    requires IsWs(c)
    ensures Tokens([c] + s) == Tokens(s)
  {
    var s' := [c] + s;
    assert s'[1..] == s;
    var f := Split(s);
    if !(|s| > 0 && IsWs(s[0])) {
      assert Split(s') == [[]] + f;
      assert ([[]] + f)[1..] == f;
    }
  }

  /** A non-whitespace character in front of the input becomes a word of its
      own when a separator or the end follows it, and otherwise is prepended
      to the first word. */
  lemma TokensNonWsCons(c: char, s: string)
    requires !IsWs(c)
    ensures StartsWord(s) ==> |Tokens(s)| > 0
    ensures Tokens([c] + s) == Glue([c], Tokens(s), StartsWord(s))
  {
    var s' := [c] + s;
    assert s'[1..] == s;
    var f := Split(s);
    assert Split(s') == [[c] + f[0]] + f[1..];
    var g := Split(s');
    assert g[0] == [c] + f[0] && g[1..] == f[1..];
    assert Tokens(s') == [[c] + f[0]] + NonEmpty(f[1..]);
    if |s| == 0 || IsWs(s[0]) {
      assert [c] + f[0] == [c];
      assert Tokens(s) == NonEmpty(f[1..]);
    } else {
      assert Tokens(s) == [f[0]] + NonEmpty(f[1..]);
    }
  }

  /** The words, concatenated, are exactly the non-whitespace characters of
      the input, in order: splitting and filtering loses and invents nothing. */
  lemma {:induction false} TokensKeepText(s: string)
    ensures Flatten(Tokens(s)) == RemoveWs(s)
    decreases |s|
  {
    if |s| == 0 {
      assert Split(s) == [s];
    } else {
      var c, r := s[0], s[1..];
      assert s == [c] + r;
      TokensKeepText(r);
      if IsWs(c) {
        TokensWsCons(c, r);
      } else {
        TokensNonWsCons(c, r);
        var t := Tokens(r);
        if |r| == 0 || IsWs(r[0]) {
          assert ([[c]] + t)[1..] == t;
        } else {
          assert ([[c] + t[0]] + t[1..])[1..] == t[1..];
          assert Flatten(t) == t[0] + Flatten(t[1..]);
        }
      }
    }
  }

  /** The input produces no word exactly when it is made only of whitespace
      (the empty input included). */
  lemma {:induction false} TokensEmptyIff(s: string)
    ensures Tokens(s) == [] <==> AllWs(s)
    decreases |s|
  {
    if |s| == 0 {
      assert Split(s) == [s];
    } else {
      var c, r := s[0], s[1..];
      assert s == [c] + r;
      TokensEmptyIff(r);
      if IsWs(c) {
        TokensWsCons(c, r);
        if AllWs(r) {
          forall k | 0 <= k < |s| ensures IsWs(s[k]) {
            if k > 0 { assert s[k] == r[k - 1]; }
          }
        } else {
          var k :| 0 <= k < |r| && !IsWs(r[k]);
          assert s[k + 1] == r[k];
        }
      } else {
        TokensNonWsCons(c, r);
      }
    }
  }

  /** Text on either side of a whitespace character is tokenised
      independently: the words of the left part, then those of the right. */
  lemma {:induction false} TokensConcat(a: string, c: char, b: string)
    requires IsWs(c)
    ensures Tokens(a + [c] + b) == Tokens(a) + Tokens(b)
    decreases |a|
  {
    if |a| == 0 {
      assert a + [c] + b == [c] + b;
      TokensWsCons(c, b);
      assert Split(a) == [a];
    } else {
      var x, a' := a[0], a[1..];
      assert a == [x] + a';
      assert a + [c] + b == [x] + (a' + [c] + b);
      TokensConcat(a', c, b);
      if IsWs(x) {
        TokensWsCons(x, a' + [c] + b);
        TokensWsCons(x, a');
      } else {
        TokensConcatNonWsHead(x, a', c, b);
      }
    }
  }

  /** The step of `TokensConcat` where the left part starts with a
      non-whitespace character `x`. */
  lemma TokensConcatNonWsHead(x: char, a: string, c: char, b: string)
    requires !IsWs(x) && IsWs(c)
    requires Tokens(a + [c] + b) == Tokens(a) + Tokens(b)
    ensures Tokens([x] + (a + [c] + b)) == Tokens([x] + a) + Tokens(b)
  {
    var u := a + [c] + b;
    assert u[0] == if |a| == 0 then c else a[0];
    assert StartsWord(u) == StartsWord(a);
    TokensNonWsCons(x, u);
    TokensNonWsCons(x, a);
    GlueAppend([x], Tokens(a), Tokens(b), StartsWord(a));
  }

  /** A single word on its own tokenises to itself. */
  lemma {:induction false} TokensOfWord(t: string)
    requires IsWord(t)
    ensures Tokens(t) == [t]
    decreases |t|
  {
    var c, r := t[0], t[1..];
    assert t == [c] + r;
    TokensNonWsCons(c, r);
    if |r| == 0 {
      assert Split(r) == [[]];
    } else {
      assert r[0] == t[1];
      TokensOfWord(r);
    }
  }

  /** Joining words with single spaces and tokenising again gives the words
      back, provided each is a non-empty run free of whitespace. */
  lemma {:induction false} TokensJoinSpace(ts: seq<string>)
    requires forall t | t in ts :: IsWord(t)
    ensures Tokens(JoinSpace(ts)) == ts
    decreases |ts|
  {
    if |ts| == 0 {
      assert Split([]) == [[]];
    } else if |ts| == 1 {
      TokensOfWord(ts[0]);
    } else {
      var w, rest := ts[0], ts[1..];
      var j := JoinSpace(rest);
      assert JoinSpace(ts) == w + [' '] + j;
      TokensJoinSpace(rest);
      TokensConcat(w, ' ', j);
      TokensOfWord(w);
      assert [w] + rest == ts;
    }
  }

  /** Shifting a run found in a suffix of `s` back to its place in `s`; the
      character in front of the suffix must be whitespace. */
  lemma RunShiftUp(s: string, m: int, i: int, j: int)
    requires 0 < m <= |s| && IsWs(s[m - 1])
    requires IsRun(s[m..], i, j)
    ensures IsRun(s, i + m, j + m) && s[i + m..j + m] == s[m..][i..j]
  {
    var r := s[m..];
    forall k | i + m <= k < j + m ensures !IsWs(s[k]) {
      assert s[k] == r[k - m];
    }
    if i > 0 { assert s[i + m - 1] == r[i - 1]; }
    if j + m < |s| { assert s[j + m] == r[j]; }
  }

  /** Shifting a run of `s` that starts at or after `m` into the suffix
      `s[m..]`. */
  lemma RunShiftDown(s: string, m: int, i: int, j: int)
    requires 0 <= m <= i && IsRun(s, i, j)
    ensures IsRun(s[m..], i - m, j - m) && s[m..][i - m..j - m] == s[i..j]
  {
    var r := s[m..];
    forall k | i - m <= k < j - m ensures !IsWs(r[k]) {
      assert r[k] == s[k + m];
    }
    if i - m > 0 { assert r[i - m - 1] == s[i - 1]; }
    if j - m < |r| { assert r[j - m] == s[j]; }
  }

  /** A string is a word of the input exactly when it is a maximal run of
      non-whitespace characters somewhere in the input. */
  lemma {:induction false} TokensAreRuns(s: string, t: string)
    ensures t in Tokens(s) <==> exists i, j :: IsRun(s, i, j) && s[i..j] == t
    decreases |s|
  {
    var n := NonWsPrefix(s);
    if n == |s| {
      TokensAreRunsOneField(s, t);
    } else {
      var m := n + 1;
      var r := s[m..];
      assert s == s[..n] + [s[n]] + r;
      TokensConcat(s[..n], s[n], r);
      if n > 0 {
        TokensOfWord(s[..n]);
      } else {
        assert Split([]) == [[]];
      }
      assert Tokens(s) == (if n == 0 then [] else [s[..n]]) + Tokens(r);
      TokensAreRuns(r, t);
      if t in Tokens(s) {
        if n > 0 && t == s[..n] {
          assert IsRun(s, 0, n);
        } else {
          assert t in Tokens(r);
          var i, j :| IsRun(r, i, j) && r[i..j] == t;
          RunShiftUp(s, m, i, j);
        }
      }
      if i, j :| IsRun(s, i, j) && s[i..j] == t {
        if i == 0 {
          assert j == n;
          assert t == s[..n];
        } else {
          assert i >= m;
          RunShiftDown(s, m, i, j);
        }
      }
    }
  }

  /** `TokensAreRuns` for an input without whitespace. */
  lemma TokensAreRunsOneField(s: string, t: string)
    requires NonWsPrefix(s) == |s|
    ensures t in Tokens(s) <==> exists i, j :: IsRun(s, i, j) && s[i..j] == t
  {
    if |s| == 0 {
      assert Split(s) == [[]];
    } else {
      TokensOfWord(s);
      assert IsRun(s, 0, |s|) && s[0..|s|] == s;
      if i, j :| IsRun(s, i, j) && s[i..j] == t {
        assert i == 0 && j == |s|;
        assert s[i..j] == s;
      }
    }
  }
}
